=== FILE: README.md ===
# MultiView state coordination, modelled in Dafny

This project models the coordination core of recline's `MultiView` data
explorer (`src/view.multiview.js`). The explorer keeps one serialisable
*composite state*. It holds the dataset query, a `view-<id>` slice per
sub-view, `currentView`, `readOnly`, `backend` and `url`. The explorer keeps
this state in step with the sub-views and the query state, shows at most one
page view at a time (with unique view ids), and reports the dataset's query lifecycle through a stack of
alerts.

The model is functional: immutable datatypes and pure transition functions.

- `JsValue` is the JavaScript side of the model. It defines the values the
  explorer handles (`Value`), truthiness, `typeof`, property reads that can
  throw, string conversion for `+`, and Underscore's shallow `_.extend`.
- `CompositeState` covers the observable `ObjectState`. Its `set` can be silent
  or not, and it keeps a counter of emitted `change` events. It also covers
  `_setupState`: decoding `reclineQuery`, the legacy `graph` → `view-graph`
  fallback, and laying the caller's initial state over the defaults.
- `Navigation` covers the view registry (the caller's views or the default
  Grid/Graph/Map/Timeline), the first view shown, and `updateNav`'s
  show/hide rule.
- `Propagation` covers `_bindStateChanges`. Binding first writes every
  sub-view's snapshot. After that, each upstream change runs its handler: the
  query path does a non-silent `set`, and the sub-view path does a silent
  `set` followed by an explicit `change`.
- `Notifications` covers `notify`, the auto-removal timers (modelled as
  idempotent `Tick(id)` steps), `clearNotifications`, and the `query:start`,
  `query:done`, `query:fail` and fetch-failure handlers.
- `MultiView` covers `initialize`, `_onSwitchView` and `MultiView.restore`.
  It proves that restoring a default-view explorer from its own serialised
  state gives back the same state, registry, navigation and read-only flag.
  This holds straight after construction and after any run of navigation
  clicks and upstream changes, under the two hypotheses stated under
  "## Left out".

JSON decoding is the parameter `parse: string -> Option<Value>`. `None` stands
for the `SyntaxError` that `JSON.parse` throws. The URL hash is a map that has
already been parsed. The default sub-views' constructors are the parameter
`build(id, slice)`, which returns the snapshot of the new view's state object,
if the view has one.

Behaviours of the code that are easy to misread, and that the model keeps:
- An unknown view name is not rejected. `updateNav` hides every view, and
  `_onSwitchView` stores the name in `currentView` anyway.
- Malformed JSON in the hash is not recovered as `{}`. Construction throws
  (`SetupState` returns `Failure`).
- The legacy `graph` key is also used when `view-graph` is present but empty,
  because JavaScript `||` treats `''` as falsy.
- `persist` is not one of `notify`'s defaults. Auto-removal depends only on
  `flash.persist`, so a loader flash without `persist` does expire.
- A `null` failure value passed to `query:fail` has `typeof` "object". Reading
  `error.title` then throws after the alerts were cleared (`OnQueryFail`
  reports `threw`).

## Model

| member | source | states |
|---|---|---|
| CompositeState.Set | src/view.multiview.js:289-297 | `state.set(update)` writes every slot of the update and keeps the others. A silent set emits no `change`. A non-silent one emits exactly one, and only when some slot's value actually differs. |
| CompositeState.SetTwiceIsSetOnce | src/view.multiview.js:295-297 | Repeating a write leaves the state as it is and emits nothing, so a plain `set` cannot be relied on to announce a sub-view change. |
| CompositeState.ViewKey | src/view.multiview.js:290 | A sub-view's slot is `view-` followed by its id: a 5-character prefix and then the id itself. |
| CompositeState.ViewKeyInjective | src/view.multiview.js:290-294 | Distinct view ids are mirrored under distinct slots. |
| CompositeState.ViewKeyAvoidsReserved | src/view.multiview.js:269-277 | No `view-<id>` slot can coincide with `query`, `backend`, `url`, `currentView` or `readOnly`. |
| CompositeState.HashQuery | src/view.multiview.js:261-263 | `query` is the decoded hash value `reclineQuery` when that key is present and non-empty, otherwise the query state's own snapshot. Undecodable JSON fails with the raw text. |
| CompositeState.HashGraph | src/view.multiview.js:264-266 | `view-graph` is decoded from `view-graph` when it is non-empty, else from the legacy `graph` when that is non-empty, else it is `{}`. |
| CompositeState.LegacyGraphKeyIgnored | src/view.multiview.js:265 | When `view-graph` is given, the legacy `graph` key has no influence at all, not even a malformed one. |
| CompositeState.SetupState | src/view.multiview.js:258-279 | Construction succeeds exactly when every hash value it decodes is valid JSON, and a bad `reclineQuery` is reported first. Every key of the initial state keeps its initial value. Every other key holds its default: the hash-derived `query` and `view-graph`, the dataset's `backend` and `url`, `currentView = null`, `readOnly = false`. |
| CompositeState.SetupStateRoundTrip | src/view.multiview.js:269-277 | A state holding every default key, fed back in as the initial state, is reproduced exactly under any hash that decodes. |
| CompositeState.SetupStateIsRestorable | src/view.multiview.js:366-371 | The output of construction is a fixed point: constructing again from it, under any decodable hash and any dataset, gives it back. |
| Navigation.DefaultViews | src/view.multiview.js:106-138 | Without caller views the registry is Grid, Graph, Map and Timeline, in that order, with unique ids. Each view is built from its own `view-<id>` slot. |
| Navigation.UpdateNav | src/view.multiview.js:218-234 | View `i` is shown exactly when its id equals the requested name, and every other view is hidden. |
| Navigation.ShownCountOfNav | src/view.multiview.js:225-233 | With unique ids, a navigation shows one view when the name is registered and none otherwise. |
| Navigation.AtMostOneShown | src/view.multiview.js:225-233 | With unique ids, no navigation shows two views, and exactly one is shown iff the name is registered. |
| Navigation.InitialView | src/view.multiview.js:147-151 | The first navigation goes to a truthy `currentView`, else to the first view's id. With no views and no `currentView`, the source throws. |
| Navigation.FirstViewShownByDefault | src/view.multiview.js:147-151 | Without a `currentView`, the first registered view is shown, and it is the only one. |
| Propagation.BindOne | src/view.multiview.js:288-291 | A view with a state object gets its snapshot written into `view-<id>`, with one `change` exactly when the slot differed and none otherwise. A view without one is skipped. |
| Propagation.BindAll | src/view.multiview.js:287-300 | Binding adds exactly the bound views' slots, leaves every other slot alone, and emits at most one `change` per view. |
| Propagation.BindAllMirrors | src/view.multiview.js:287-291 | After binding, each bound view's slot holds that view's snapshot. When ids repeat, the last bound view wins. |
| Propagation.BindAllSyncs | src/view.multiview.js:287-300 | With unique ids, binding leaves every `view-<id>` slot equal to its view's current snapshot. |
| Propagation.OnQueryChange | src/view.multiview.js:284-286 | A query-state change writes its snapshot into `query` and emits a `change` exactly when the stored query differed. |
| Propagation.OnViewChange | src/view.multiview.js:292-298 | A sub-view change writes its snapshot into `view-<id>` and emits exactly one `change`, whether or not the value differed. |
| Propagation.Step | src/view.multiview.js:284-298 | Each upstream change runs the handler subscribed to its source. A query change leaves the registry alone. A sub-view change replaces only that view's snapshot and leaves the query alone. A change on a view without a state object reaches no handler. |
| Propagation.StepKeepsSynced | src/view.multiview.js:284-298 | With unique ids, every handled change keeps every `view-<id>` slot equal to its view's live snapshot. |
| Propagation.RunKeepsSynced | src/view.multiview.js:284-298 | Any run of upstream changes preserves that synchronisation. |
| Propagation.RunChangeCount | src/view.multiview.js:284-298 | Over any run, observers hear at least one `change` per sub-view change and at most one per upstream change. |
| Propagation.ViewChangesEmitOneEach | src/view.multiview.js:292-298 | A run made only of sub-view changes emits exactly one `change` per change. |
| Notifications.Notify | src/view.multiview.js:321-350 | `notify` appends one alert. Its message, category and loader flag come from the flash where the flash has them, else from the defaults `Loading`, `warning` and `false`. Removal is scheduled exactly when `flash.persist` is falsy. |
| Notifications.AutoRemovalIgnoresLoader | src/view.multiview.js:343 | Whether removal is scheduled does not depend on the loader flag. |
| Notifications.NotifyKeepsConsistent | src/view.multiview.js:321-350 | `notify` keeps ids increasing and keeps a pending timer exactly for the expiring alerts. |
| Notifications.Tick | src/view.multiview.js:343-349 | A firing timer removes its own alert, if that alert is still shown, and nothing else. A timer that already fired does nothing. |
| Notifications.TickIdempotent | src/view.multiview.js:344-348 | A removal timer firing twice has the effect of firing once. |
| Notifications.NotifyThenTick | src/view.multiview.js:343-349 | A flash without `persist`, once its timer fires, leaves the alerts exactly as they were before it. |
| Notifications.TickKeepsConsistent | src/view.multiview.js:344-348 | Timer firings keep the alert area consistent. |
| Notifications.PersistentSurvivesTicks | src/view.multiview.js:343-349 | No sequence of timer firings removes a persistent alert. |
| Notifications.Clear | src/view.multiview.js:355-360 | `clearNotifications` removes every alert, whatever its category or flags. |
| Notifications.TicksAfterClearAreHarmless | src/view.multiview.js:343-360 | Timers that fire after a clear find nothing to remove. |
| Notifications.OnQueryStart | src/view.multiview.js:153-155 | `query:start` adds one persistent loader alert with the default message and category. |
| Notifications.OnQueryDone | src/view.multiview.js:156-159 | `query:done` clears every alert, the loader included, and keeps the alert ids and pending timers. The count text is the document count when that is truthy and `Unknown` otherwise. |
| Notifications.FailureMessage | src/view.multiview.js:162-174 | A text failure is shown verbatim. For an object failure the message is `title + ': '` when the title is truthy, followed by the message when that is truthy. An array failure gives the empty text, any other value the generic backend error, and `null` throws. |
| Notifications.TitledFailureMessage | src/view.multiview.js:166-171 | An object failure with a title and a message reads `title: message`. |
| Notifications.OnQueryFail | src/view.multiview.js:160-176 | `query:fail` leaves exactly one alert: a persistent, non-loader `error` alert carrying the derived message. A `null` failure throws after the clear and leaves none. |
| Notifications.LoaderOutlivesTimers | src/view.multiview.js:153-155 | The loader alert that `query:start` adds survives any sequence of removal timers, so only a `query:done` or `query:fail` clears it. |
| Notifications.FailureAlertOutlivesTimers | src/view.multiview.js:160-176 | The error alert that `query:fail` leaves survives any sequence of removal timers. |
| Notifications.OnFetchFail | src/view.multiview.js:184-186 | A failed fetch appends a persistent error alert carrying `error.message`, possibly `undefined`, without clearing. Reading the message from `null` or `undefined` throws. A successful handler issues exactly one new id, and no handler arms or cancels a timer. |
| Notifications.FetchFailureAlertOutlivesTimers | src/view.multiview.js:184-186 | The error alert a failed fetch adds survives any sequence of removal timers. |
| Notifications.Handle | src/view.multiview.js:153-186 | Each report reaching the alert area issues at most one new id. Only a `notify` flash arms a timer, and only for the alert it adds; only a firing timer cancels one. `clearNotifications` and `query:done` leave no alert. |
| Notifications.HandleKeepsConsistent | src/view.multiview.js:153-186 | Every report keeps alert ids increasing and a timer armed exactly for the expiring alerts. |
| MultiView.Launch | src/view.multiview.js:139-151 | After the state is built, binding keeps every slot that is not a bound view's and, with unique ids, syncs every bound view. The read-only flag is the stored `readOnly`. The view shown is the one named by a truthy `currentView`, else the first view. With neither, the source throws. |
| MultiView.Initialize | src/view.multiview.js:101-151 | Construction succeeds exactly when the hash decodes and there is a view to show: the caller's registry is not empty, or `currentView` is truthy. It starts with no alerts, sets the read-only flag from `readOnly`, and keeps every initial-state slot other than a bound view's. With unique ids it starts in sync with every bound view. It shows exactly the views whose id is a truthy initial `currentView`, else the views sharing the first view's id. It throws for want of a view exactly when the caller passes an empty registry and no truthy `currentView`. |
| MultiView.InitializeRestorable | src/view.multiview.js:101-151 | When every sub-view rebuilt from a snapshot it reported reports that same snapshot (`Stable`), an explorer built over the default views is fully described by its own state. Its registry is what the state's view slots build, every slot mirrors its view, and its navigation and read-only flag are the ones the stored `currentView` and `readOnly` give. |
| MultiView.SwitchKeepsRestorable | src/view.multiview.js:246-251 | A click on a truthy view name keeps the explorer described by its own state. |
| MultiView.StepKeepsRestorable | src/view.multiview.js:284-298 | A query change keeps the explorer described by its own state. So does a sub-view change, when the sub-view reproduces the snapshot it reported on being rebuilt from it. |
| MultiView.ReplayKeepsRestorable | src/view.multiview.js:246-298 | Any run of such clicks, upstream changes and alert reports keeps the explorer described by its own state. |
| MultiView.ReplayKeepsAlertsConsistent | src/view.multiview.js:153-186 | Any run of clicks, upstream changes and alert reports keeps the alert area consistent. |
| MultiView.RestoreReproduces | src/view.multiview.js:366-373 | `restore` applied to the state of an explorer that state describes succeeds under any decodable hash. It gives back the same state, registry, navigation and read-only flag. |
| MultiView.SwitchView | src/view.multiview.js:246-251 | A navigation click sets `currentView` to the clicked name and changes no other slot. It emits one `change` exactly when the name differs from the stored one and none otherwise, and it shows exactly the views with that id. |
| MultiView.SwitchKeepsSynced | src/view.multiview.js:246-251 | Switching views keeps every `view-<id>` slot in sync. |
| MultiView.SwitchShowsOneIffRegistered | src/view.multiview.js:218-251 | With unique ids, switching shows one view iff the name is registered. `currentView` records the name even when it is not. |
| MultiView.Restore | src/view.multiview.js:366-373 | `restore` succeeds exactly when the hash decodes, and uses the four default views. |
| MultiView.RestoreKeepsSlot | src/view.multiview.js:366-371 | Under a decodable hash, `restore` succeeds and keeps the serialised value of every slot that is not a `view-…` slot: `query`, `currentView`, `readOnly`, `backend`, `url` and any other key. |
| MultiView.RestoreAfterReplay | src/view.multiview.js:366-373 | An explorer its own state describes is restored, under any decodable hash, to the same state, registry, navigation and read-only flag after any admissible run of clicks and upstream changes. |
| MultiView.RestoreShowsFirstView | src/view.multiview.js:147-151 | A serialised state without a truthy `currentView` restores, under any decodable hash, to an explorer showing the first view. |
| MultiView.EmptyClickShowsNothing | src/view.multiview.js:246-251 | A click whose view name is empty shows none of the default views and stores a falsy `currentView`. |
| MultiView.EmptyClickIsNotRestored | src/view.multiview.js:147-151 | After a click on an empty name no view is shown, yet the explorer restored from that state shows the first view. The round trip therefore needs clicks on truthy names. |
| MultiView.RestoreRoundTrip | src/view.multiview.js:366-373 | Restoring a default-view explorer from its own state, straight after construction or after any admissible run of clicks and upstream changes, reproduces its composite state, registry, navigation and read-only flag. This needs sub-views that report back the state they were built from. |

## Left out

- Templates, rendering, DOM queries and CSS classes (`render`, `_onMenuClick`, `setReadOnly`) are out of scope. Read-only mode is only a flag.
- The navigation links are not modelled. `updateNav` picks the active link by pasting the name into a selector, but picks the shown view with `===`. So a non-string `currentView` such as `["grid"]` marks the grid link active while every view is hidden. A name containing `"` makes a malformed selector, on which jQuery throws. The model covers only the views' `Shown`/`Hidden` flags.
- The `view:show` and `view:hide` lifecycle triggers are represented by the `Shown`/`Hidden` flags that `updateNav` computes.
- Fade durations and `setTimeout` delays are not modelled. An auto-removal is an idempotent `Tick(id)` step. `clearNotifications` removes alerts at once, where the source fades them out first.
- The alert selector in `notify` and `clearNotifications` spans every explorer on the page. The model has a single explorer.
- `model.fetch()`, `model.query()` and the backend are asynchronous foreign calls. Their events are inputs to the model. The `query` issued after a successful fetch is not modelled.
- `JSON.parse` and `recline.Util.parseHashQueryString` are parameters: a partial decoder and an already-parsed key/value map.
- Sub-view internals are opaque: the default views' constructors are the `build` parameter. The same goes for QueryEditor, FilterEditor and FacetViewer.
- `_bindFlashNotifications` forwards every `recline:flash` payload to `notify` unchanged, so `Notify` is its model. A flash event without a payload, which would throw on `flash.persist`, is not modelled.
- Backbone's event machinery is reduced to one assumption: a non-silent `set` emits one `change` exactly when some slot's value differs under deep equality. Handlers of the composite state's own `change` event are not modelled.
- JavaScript numbers are integers of unbounded magnitude here (no fractions, `NaN` or infinities, and no loss of precision above 2^53 or exponent notation from 10^21 on). Object key order is ignored. Built-in properties such as `length` are not modelled by property reads.
- Values are immutable in the model, while the source shares them. `_.extend` and Backbone's `toJSON()` make only shallow copies. So nested objects are shared between the composite state, the caller's or serialised state, and the live query and sub-view states. An in-place change to such a nested object, which alters a stored slot without any `set`, is not modelled. Neither is the silent non-emission that follows, when the next non-silent `set` finds the values equal.
- An absent `options.state` is modelled as the empty record, which `_.extend` treats the same way.
- Propagation.BindAll: states only bounds (at most one `change` per view) on the events emitted during binding, because the exact number depends on which slots already held the snapshot.
- MultiView.RestoreRoundTrip: holds only under two hypotheses. (1) Every click names a truthy view. An empty `data-view` hides every view, while the restored explorer shows the first one (`EmptyClickIsNotRestored`). (2) A sub-view rebuilt from a snapshot it reported reports that same snapshot. Explorers built with caller-supplied `views` are not covered, because `restore` always builds the default views. The alert area is not compared.
- MultiView.Restore: its own contract states only success and the registry size. Slot preservation and the round trip are the separate lemmas `RestoreKeepsSlot` and `RestoreRoundTrip`. Rebuilding the dataset (`Dataset.restore`) is opaque and enters only through the dataset parameter.

=== FILE: composite_state.dfy ===
/**
 The explorer's composite state: recline's observable `ObjectState`, the keys
 it reserves, and the way `_setupState` assembles the first value of that
 state from defaults, the parsed URL hash and the caller's initial state.
 */
module CompositeState {
  import opened Results
  import opened JsValue

  /**
   An observable record: its attributes and the number of `change` events it
   has emitted so far. Handlers bound to `change` are not modelled; the
   counter is what observers of the composite state get to see.
   */
  datatype ObjectState = ObjectState(attrs: Record, changes: nat)

  /** True when writing `update` over `attrs` gives some slot a different value. */
  predicate Alters(attrs: Record, update: Record) {
    exists k :: k in update && Get(attrs, k) != update[k]
  }

  /**
   `state.set(update, {silent})`: every slot of `update` is written; a
   non-silent set emits one `change` event when it alters some slot, and a
   silent set emits none.
   */
  function Set(o: ObjectState, update: Record, silent: bool): (r: ObjectState)
    ensures r.attrs.Keys == o.attrs.Keys + update.Keys
    ensures forall k :: k in update ==> r.attrs[k] == update[k]
    ensures forall k :: k in o.attrs && k !in update ==> r.attrs[k] == o.attrs[k]
    ensures silent ==> r.changes == o.changes
    ensures !silent ==> (r.changes == o.changes + 1 <==> exists k :: k in update && Get(o.attrs, k) != update[k])
    ensures r.changes == o.changes || r.changes == o.changes + 1
  {
    ObjectState(Extend(o.attrs, update), if !silent && Alters(o.attrs, update) then o.changes + 1 else o.changes)
  }

  /** `state.trigger('change')`: one more event, no attribute touched. */
  function Trigger(o: ObjectState): (r: ObjectState)
    ensures r.attrs == o.attrs
    ensures r.changes == o.changes + 1
  {
    ObjectState(o.attrs, o.changes + 1)
  }

  /** Writing the same update twice: the second write changes nothing and emits nothing. */
  lemma SetTwiceIsSetOnce(o: ObjectState, update: Record, silent: bool)
    ensures Set(Set(o, update, silent), update, false).attrs == Set(o, update, silent).attrs
    ensures Set(Set(o, update, silent), update, false).changes == Set(o, update, silent).changes
  {
    var once := Set(o, update, silent);
    var twice := Set(once, update, false);
    assert !Alters(once.attrs, update) by {
      forall k | k in update
        ensures Get(once.attrs, k) == update[k]
      {
      }
    }
  }

  /** The composite-state key under which a sub-view's state is mirrored. */
  function ViewKey(id: string): (r: string)
    ensures |r| == |id| + 5
    ensures r[..5] == "view-"
    ensures r[5..] == id
  {
    "view-" + id
  }

  /** Distinct view ids are mirrored under distinct keys. */
  lemma ViewKeyInjective(a: string, b: string)
    requires ViewKey(a) == ViewKey(b)
    ensures a == b
  {
    calc {
      a;
      ViewKey(a)[5..];
      ViewKey(b)[5..];
      b;
    }
  }

  /** The keys the defaults record always holds. */
  const DefaultKeys: set<string> := {"query", "view-graph", "backend", "url", "currentView", "readOnly"}

  /** No view slot can shadow one of the explorer's own reserved keys. */
  lemma ViewKeyAvoidsReserved(id: string)
    ensures ViewKey(id) != "query"
    ensures ViewKey(id) != "backend"
    ensures ViewKey(id) != "url"
    ensures ViewKey(id) != "currentView"
    ensures ViewKey(id) != "readOnly"
  {
    var k := ViewKey(id);
    assert k[0] == k[..5][0] == 'v';
  }

  /** The URL hash parsed into its `key=value` pairs. */
  type QueryString = map<string, string>

  /** What the explorer reads from its dataset while building its state. */
  datatype Dataset = Dataset(querySnapshot: Value, backendType: Value, url: Value)

  /** `JSON.parse` throwing on one of the hash values the explorer decodes. */
  datatype SetupError = BadQueryJson(raw: string) | BadGraphJson(raw: string)

  /** The hash slot `qs[k]`: a string, or `undefined` when the key is absent. */
  function HashValue(qs: QueryString, k: string): Value {
    if k in qs then Str(qs[k]) else Undefined
  }

  /** A hash key counts as given when it is present with a non-empty value. */
  predicate Present(qs: QueryString, k: string) {
    k in qs && qs[k] != ""
  }

  /** JSON decoding of a raw hash value; `None` stands for a syntax error. */
  function Decode(parse: string -> Option<Value>, raw: string, err: SetupError): (r: Result<Value, SetupError>)
    ensures r.Success? <==> parse(raw).Some?
    ensures r.Success? ==> r.value == parse(raw).value
    ensures r.Failure? ==> r.error == err
  {
    match parse(raw)
    case Some(v) => Success(v)
    case None => Failure(err)
  }

  /**
   The `query` slot taken from the hash: the decoded `reclineQuery` value
   when one is given, otherwise the dataset query state's own snapshot.
   */
  function HashQuery(qs: QueryString, parse: string -> Option<Value>, ds: Dataset): (r: Result<Value, SetupError>)
    ensures !Present(qs, "reclineQuery") ==> r == Success(ds.querySnapshot)
    ensures Present(qs, "reclineQuery") ==> (r.Success? <==> parse(qs["reclineQuery"]).Some?)
    ensures Present(qs, "reclineQuery") && r.Success? ==> r.value == parse(qs["reclineQuery"]).value
    ensures r.Failure? ==> r.error == BadQueryJson(qs["reclineQuery"])
  {
    var raw := HashValue(qs, "reclineQuery");
    if Truthy(raw) then Decode(parse, raw.s, BadQueryJson(raw.s)) else Success(ds.querySnapshot)
  }

  /** `qs['view-graph'] || qs.graph`: the new key when given, else the legacy one. */
  function GraphSource(qs: QueryString): Value {
    var current := HashValue(qs, "view-graph");
    if Truthy(current) then current else HashValue(qs, "graph")
  }

  /**
   The `view-graph` slot taken from the hash: decoded from `view-graph` when
   that is given, else from the legacy `graph` key when that is given, else an
   empty object.
   */
  function HashGraph(qs: QueryString, parse: string -> Option<Value>): (r: Result<Value, SetupError>)
    ensures Present(qs, "view-graph") ==> r == Decode(parse, qs["view-graph"], BadGraphJson(qs["view-graph"]))
    ensures !Present(qs, "view-graph") && Present(qs, "graph") ==> r == Decode(parse, qs["graph"], BadGraphJson(qs["graph"]))
    ensures !Present(qs, "view-graph") && !Present(qs, "graph") ==> r == Success(Obj(map[]))
  {
    var src := GraphSource(qs);
    if Truthy(src) then Decode(parse, src.s, BadGraphJson(src.s)) else Success(Obj(map[]))
  }

  /** When both keys are given the new one decides, whatever the legacy key holds. */
  lemma LegacyGraphKeyIgnored(qs: QueryString, parse: string -> Option<Value>, legacy: string)
    requires Present(qs, "view-graph")
    ensures HashGraph(qs["graph" := legacy], parse) == HashGraph(qs, parse)
  {
  }

  /** Every hash value the explorer decodes is well-formed JSON. */
  predicate HashDecodes(qs: QueryString, parse: string -> Option<Value>) {
    && (Present(qs, "reclineQuery") ==> parse(qs["reclineQuery"]).Some?)
    && (Present(qs, "view-graph") ==> parse(qs["view-graph"]).Some?)
    && (!Present(qs, "view-graph") && Present(qs, "graph") ==> parse(qs["graph"]).Some?)
  }

  /** The defaults layer, already carrying the hash-derived `query` and `view-graph`. */
  function Defaults(query: Value, graph: Value, ds: Dataset): (r: Record)
    ensures r.Keys == DefaultKeys
  {
    map["query" := query, "view-graph" := graph, "backend" := ds.backendType,
        "url" := ds.url, "currentView" := Null, "readOnly" := Bool(false)]
  }

  /**
   `_setupState(initialState)`: the hash values are decoded (the query first),
   and the caller's initial state is laid over the defaults one key at a
   time. A malformed hash value aborts construction.
   */
  function SetupState(qs: QueryString, parse: string -> Option<Value>, ds: Dataset, initial: Record): (r: Result<Record, SetupError>)
    ensures r.Success? <==> HashDecodes(qs, parse)
    ensures r.Failure? ==> (r.error.BadQueryJson? <==> Present(qs, "reclineQuery") && parse(qs["reclineQuery"]).None?)
    ensures r.Success? ==> r.value.Keys == DefaultKeys + initial.Keys
    ensures r.Success? ==> forall k :: k in initial ==> r.value[k] == initial[k]
    ensures r.Success? && "query" !in initial ==> r.value["query"] == HashQuery(qs, parse, ds).value
    ensures r.Success? && "view-graph" !in initial ==> r.value["view-graph"] == HashGraph(qs, parse).value
    ensures r.Success? && "backend" !in initial ==> r.value["backend"] == ds.backendType
    ensures r.Success? && "url" !in initial ==> r.value["url"] == ds.url
    ensures r.Success? && "currentView" !in initial ==> r.value["currentView"] == Null
    ensures r.Success? && "readOnly" !in initial ==> r.value["readOnly"] == Bool(false)
  {
    match HashQuery(qs, parse, ds)
    case Failure(e) => Failure(e)
    case Success(query) =>
      match HashGraph(qs, parse)
      case Failure(e) => Failure(e)
      case Success(graph) => Success(Extend(Defaults(query, graph, ds), initial))
  }

  /**
   Feeding a state that already holds every default key back in as the
   initial state reproduces it exactly, whatever the hash and the dataset
   say, as long as the hash decodes.
   */
  lemma SetupStateRoundTrip(qs: QueryString, parse: string -> Option<Value>, ds: Dataset, s: Record)
    requires DefaultKeys <= s.Keys
    requires HashDecodes(qs, parse)
    ensures SetupState(qs, parse, ds, s) == Success(s)
  {
    var r := SetupState(qs, parse, ds, s).value;
    assert r.Keys == s.Keys;
    assert forall k :: k in s ==> r[k] == s[k];
    assert r == s;
  }

  /**
   A state built by `SetupState` is a fixed point of construction: serialising
   it and constructing again under any well-formed hash gives it back.
   */
  lemma SetupStateIsRestorable(qs: QueryString, qs': QueryString, parse: string -> Option<Value>,
                               ds: Dataset, ds': Dataset, initial: Record)
    requires SetupState(qs, parse, ds, initial).Success?
    requires HashDecodes(qs', parse)
    ensures SetupState(qs', parse, ds', SetupState(qs, parse, ds, initial).value)
         == SetupState(qs, parse, ds, initial)
  {
    SetupStateRoundTrip(qs', parse, ds', SetupState(qs, parse, ds, initial).value);
  }
}

=== FILE: js_value.dfy ===
/**
 The JavaScript values the explorer stores in its state, reads from the URL
 hash and receives with events, together with the few language rules the
 coordination logic relies on: truthiness, `typeof`, property reads, string
 conversion for `+`, and Underscore's shallow `_.extend`.
 */
module JsValue {
  import opened Results

  /** A JavaScript value. Objects are string-keyed maps; numbers are integers. */
  datatype Value =
    | Undefined
    | Null
    | Bool(b: bool)
    | Num(n: int)
    | Str(s: string)
    | Arr(items: seq<Value>)
    | Obj(fields: map<string, Value>)

  /** A plain JavaScript object used as a record of named slots. */
  type Record = map<string, Value>

  /** JavaScript's `ToBoolean`: `undefined`, `null`, `false`, `0` and `''` are falsy. */
  predicate Truthy(v: Value) {
    match v
    case Undefined => false
    case Null => false
    case Bool(b) => b
    case Num(n) => n != 0
    case Str(s) => s != ""
    case Arr(_) => true
    case Obj(_) => true
  }

  /** The `typeof` operator; `null` and arrays both report "object". */
  function TypeOf(v: Value): (r: string)
    ensures r == "object" <==> (v.Null? || v.Arr? || v.Obj?)
    ensures r == "string" <==> v.Str?
  {
    match v
    case Undefined => "undefined"
    case Null => "object"
    case Bool(_) => "boolean"
    case Num(_) => "number"
    case Str(_) => "string"
    case Arr(_) => "object"
    case Obj(_) => "object"
  }

  /** Reading slot `k` of a record: a missing slot reads as `undefined`. */
  function Get(m: Record, k: string): (r: Value)
    ensures k in m ==> r == m[k]
    ensures k !in m ==> r == Undefined
  {
    if k in m then m[k] else Undefined
  }

  /**
   The property read `v.k` for an ordinary (non-built-in) property name:
   `None` is the TypeError raised when `v` is `null` or `undefined`.
   */
  function Prop(v: Value, k: string): (r: Option<Value>)
    ensures r.None? <==> (v.Undefined? || v.Null?)
    ensures v.Obj? ==> r == Some(Get(v.fields, k))
    ensures !v.Obj? && r.Some? ==> r.value == Undefined
  {
    match v
    case Undefined => None
    case Null => None
    case Obj(fields) => Some(Get(fields, k))
    case _ => Some(Undefined)
  }

  /**
   Underscore's `_.extend(base, top)`: a shallow copy of `base` in which every
   own slot of `top` replaces the slot of the same name.
   */
  function Extend(base: Record, top: Record): (r: Record)
    ensures r.Keys == base.Keys + top.Keys
    ensures forall k :: k in top ==> r[k] == top[k]
    ensures forall k :: k in base && k !in top ==> r[k] == base[k]
  {
    base + top
  }

  /** A string made only of the digits `0`–`9`. */
  predicate AllDigits(s: string) {
    forall i :: 0 <= i < |s| ==> '0' <= s[i] <= '9'
  }

  /** The number a string of decimal digits denotes, most significant first. */
  function DecimalValue(s: string): nat
    requires AllDigits(s)
    decreases |s|
  {
    if |s| == 0 then 0
    else 10 * DecimalValue(s[..|s| - 1]) + (s[|s| - 1] - '0') as int
  }

  /**
   Decimal digits of a natural number, most significant first, as `String(n)`
   writes them below 10^21: they denote `n` and carry no leading zero.
   */
  function NatToDecimal(n: nat): (r: string)
    ensures |r| > 0
    ensures AllDigits(r)
    ensures DecimalValue(r) == n
    ensures |r| > 1 ==> r[0] != '0'
    decreases n
  {
    var d := ['0' + (n % 10) as char];
    if n < 10 then d
    else
      var high := NatToDecimal(n / 10);
      assert (high + d)[..|high + d| - 1] == high;
      high + d
  }

  /** JavaScript's `ToString`, as applied by string concatenation. */
  function ToStr(v: Value): string
    decreases v
  {
    match v
    case Undefined => "undefined"
    case Null => "null"
    case Bool(b) => if b then "true" else "false"
    case Num(n) => if n < 0 then "-" + NatToDecimal(-n) else NatToDecimal(n)
    case Str(s) => s
    case Arr(items) => JoinItems(items)
    case Obj(_) => "[object Object]"
  }

  /** `Array.prototype.join(',')`: `null` and `undefined` elements become empty. */
  function JoinItems(items: seq<Value>): string
    decreases items
  {
    if |items| == 0 then ""
    else
      var head := if items[0].Undefined? || items[0].Null? then "" else ToStr(items[0]);
      if |items| == 1 then head else head + "," + JoinItems(items[1..])
  }

}

=== FILE: multiview.dfy ===
/**
 The `MultiView` explorer as a whole: construction (`initialize`), switching
 views from the navigation bar (`_onSwitchView`) and `MultiView.restore`.
 */
module MultiView {
  import opened Results
  import opened JsValue
  import opened CompositeState
  import opened Navigation
  import opened Propagation
  import opened Notifications

  /** What construction reads from its surroundings: the URL hash, `JSON.parse` and the dataset. */
  datatype Environment = Environment(hash: QueryString, parse: string -> Option<Value>, dataset: Dataset)

  /** The caller's options: `views` when given, and `state` (an absent state is the empty record). */
  datatype Options = Options(views: Option<seq<PageView>>, state: Record)

  /**
   A constructed explorer: the composite state with the live objects it
   mirrors, which views are shown, whether the read-only class was set, and
   the alert area.
   */
  datatype Explorer = Explorer(session: Session, nav: seq<Visibility>, readOnly: bool, alerts: Center)

  /** Why construction throws: a malformed hash value, or no view to show. */
  datatype InitError = StateError(cause: SetupError) | NoViewToShow

  /** The registry: the caller's views when given, otherwise the default four. */
  function Registry(opts: Options, attrs: Record, build: (string, Value) -> Option<Value>): seq<PageView> {
    if opts.views.Some? then opts.views.value else DefaultViews(attrs, build)
  }

  /**
   The part of `initialize` after the composite state is built: bind every
   view's state, read `readOnly`, then navigate to a truthy `currentView` or
   else to the first view. `None` is the TypeError of an empty registry.
   */
  function Launch(attrs: Record, views: seq<PageView>, query: Value): (r: Option<Explorer>)
    ensures r.None? <==> !Truthy(Get(attrs, "currentView")) && |views| == 0
    ensures r.Some? ==> r.value.session.views == views && r.value.session.query == query
    ensures r.Some? ==> r.value.alerts == EmptyCenter
    ensures r.Some? ==> (r.value.readOnly <==> Truthy(Get(attrs, "readOnly")))
    ensures r.Some? ==> forall k :: k in attrs && k !in BoundKeys(views) ==>
      k in r.value.session.state.attrs && r.value.session.state.attrs[k] == attrs[k]
    ensures r.Some? && UniqueIds(views) ==> Synced(r.value.session.state, views)
    ensures r.Some? ==> |r.value.nav| == |views|
    ensures r.Some? ==> r.value.session.state.attrs == BindAll(ObjectState(attrs, 0), views).attrs
    ensures r.Some? ==> r.value.nav == UpdateNav(views, InitialView(r.value.session.state.attrs, views).value)
    ensures r.Some? ==> r.value.readOnly == Truthy(Get(r.value.session.state.attrs, "readOnly"))
    ensures r.Some? && Truthy(Get(attrs, "currentView")) ==>
      forall i :: 0 <= i < |views| ==> (r.value.nav[i] == Shown <==> attrs["currentView"] == Str(views[i].id))
    ensures r.Some? && !Truthy(Get(attrs, "currentView")) ==>
      |views| > 0 && forall i :: 0 <= i < |views| ==> (r.value.nav[i] == Shown <==> views[0].id == views[i].id)
  {
    var bound := BindAll(ObjectState(attrs, 0), views);
    assert forall id :: ViewKey(id) != "readOnly" && ViewKey(id) != "currentView" by {
      forall id: string
        ensures ViewKey(id) != "readOnly" && ViewKey(id) != "currentView"
      {
        ViewKeyAvoidsReserved(id);
      }
    }
    assert UniqueIds(views) ==> Synced(bound, views) by {
      if UniqueIds(views) {
        BindAllSyncs(ObjectState(attrs, 0), views);
      }
    }
    assert "currentView" !in BoundKeys(views);
    match InitialView(bound.attrs, views)
    case None => None
    case Some(name) =>
      Some(Explorer(Session(bound, views, query), UpdateNav(views, name), Truthy(Get(bound.attrs, "readOnly")), EmptyCenter))
  }

  /**
   `initialize(options)`: build the composite state, pick the registry, bind
   every view's state (the first writes into `view-<id>`), read `readOnly`,
   then navigate to `currentView` or to the first view. `build` stands for
   the default sub-views' constructors.
   */
  function Initialize(env: Environment, build: (string, Value) -> Option<Value>, opts: Options): (r: Result<Explorer, InitError>)
    ensures !HashDecodes(env.hash, env.parse) ==> r.Failure? && r.error.StateError?
    ensures r.Success? ==> HashDecodes(env.hash, env.parse)
    ensures r.Success? ==> r.value.alerts == EmptyCenter
    ensures r.Success? ==> r.value.session.query == env.dataset.querySnapshot
    ensures r.Success? ==> |r.value.nav| == |r.value.session.views|
    ensures r.Success? ==> (r.value.readOnly <==> Truthy(Get(opts.state, "readOnly")))
    ensures r.Success? ==> forall k :: k in opts.state && k !in BoundKeys(r.value.session.views) ==>
      k in r.value.session.state.attrs && r.value.session.state.attrs[k] == opts.state[k]
    ensures r.Success? && opts.views.Some? ==> r.value.session.views == opts.views.value
    ensures r.Success? && opts.views.None? ==>
      r.value.session.views == DefaultViews(SetupState(env.hash, env.parse, env.dataset, opts.state).value, build)
    ensures r.Success? && UniqueIds(r.value.session.views) ==> Synced(r.value.session.state, r.value.session.views)
    ensures opts.views.None? && HashDecodes(env.hash, env.parse) ==> r.Success?
    ensures r.Success? && Truthy(Get(opts.state, "currentView")) ==>
      forall i :: 0 <= i < |r.value.nav| ==>
        (r.value.nav[i] == Shown <==> opts.state["currentView"] == Str(r.value.session.views[i].id))
    ensures r.Success? && !Truthy(Get(opts.state, "currentView")) ==>
      |r.value.session.views| > 0 &&
      forall i :: 0 <= i < |r.value.nav| ==>
        (r.value.nav[i] == Shown <==> r.value.session.views[0].id == r.value.session.views[i].id)
    ensures r.Success? <==>
      HashDecodes(env.hash, env.parse) && (opts.views != Some([]) || Truthy(Get(opts.state, "currentView")))
    ensures (r.Failure? && r.error.NoViewToShow?) <==>
      HashDecodes(env.hash, env.parse) && opts.views == Some([]) && !Truthy(Get(opts.state, "currentView"))
  {
    match SetupState(env.hash, env.parse, env.dataset, opts.state)
    case Failure(e) => Failure(StateError(e))
    case Success(attrs) =>
      assert Get(attrs, "currentView") == Get(opts.state, "currentView") || Get(attrs, "currentView") == Null;
      assert Get(attrs, "readOnly") == Get(opts.state, "readOnly") || Get(attrs, "readOnly") == Bool(false);
      match Launch(attrs, Registry(opts, attrs, build), env.dataset.querySnapshot)
      case None => Failure(NoViewToShow)
      case Some(e) => Success(e)
  }

  /**
   A click on a navigation link: `updateNav(name)`, then
   `state.set({currentView: name})`. An unknown name is stored all the same
   and hides every view.
   */
  function SwitchView(e: Explorer, name: Value): (r: Explorer)
    ensures r.session.state.attrs == e.session.state.attrs["currentView" := name]
    ensures r.session.state.changes ==
      if Get(e.session.state.attrs, "currentView") != name then e.session.state.changes + 1 else e.session.state.changes
    ensures |r.nav| == |e.session.views|
    ensures forall i :: 0 <= i < |r.nav| ==> (r.nav[i] == Shown <==> name == Str(e.session.views[i].id))
    ensures r.session.views == e.session.views && r.session.query == e.session.query
    ensures r.readOnly == e.readOnly && r.alerts == e.alerts
  {
    var nav := UpdateNav(e.session.views, name);
    var state := Set(e.session.state, map["currentView" := name], false);
    e.(session := e.session.(state := state), nav := nav)
  }

  /** Switching views changes no slot but `currentView` and keeps every view slot in sync. */
  lemma SwitchKeepsSynced(e: Explorer, name: Value)
    requires Synced(e.session.state, e.session.views)
    ensures Synced(SwitchView(e, name).session.state, SwitchView(e, name).session.views)
  {
    forall i | 0 <= i < |e.session.views|
      ensures ViewKey(e.session.views[i].id) != "currentView"
    {
      ViewKeyAvoidsReserved(e.session.views[i].id);
    }
  }

  /**
   With unique ids, switching to a registered name shows exactly that view;
   switching to an unknown name shows none, yet `currentView` records it.
   */
  lemma SwitchShowsOneIffRegistered(e: Explorer, name: Value)
    requires UniqueIds(e.session.views)
    ensures ShownCount(SwitchView(e, name).nav) == if Registered(e.session.views, name) then 1 else 0
    ensures SwitchView(e, name).session.state.attrs["currentView"] == name
  {
    ShownCountOfNav(e.session.views, name);
  }

  /** `MultiView.restore(state)`: a new explorer over the default views with `state` as its initial state. */
  function Restore(env: Environment, build: (string, Value) -> Option<Value>, serialized: Record): (r: Result<Explorer, InitError>)
    ensures HashDecodes(env.hash, env.parse) <==> r.Success?
    ensures r.Success? ==> |r.value.session.views| == 4
  {
    Initialize(env, build, Options(None, serialized))
  }

  /**
   A restored explorer holds the serialized value of every slot that is not
   a `view-…` slot: `query`, `currentView`, `readOnly`, `backend`, `url` and
   any other key the serialized state carries.
   */
  lemma RestoreKeepsSlot(env: Environment, build: (string, Value) -> Option<Value>, serialized: Record, k: string)
    requires HashDecodes(env.hash, env.parse)
    requires k in serialized
    requires |k| < 5 || k[..5] != "view-"
    ensures Restore(env, build, serialized).Success?
    ensures k in Restore(env, build, serialized).value.session.state.attrs
    ensures Restore(env, build, serialized).value.session.state.attrs[k] == serialized[k]
  {
    var views := Restore(env, build, serialized).value.session.views;
    assert k !in BoundKeys(views);
  }

  /**
   The default sub-views give back the state they were built from: building
   one from its own snapshot yields that snapshot again.
   */
  ghost predicate Stable(build: (string, Value) -> Option<Value>) {
    forall id, v, w :: build(id, v) == Some(w) ==> build(id, w) == Some(w)
  }

  /** Binding views the state already mirrors writes nothing new. */
  lemma BindSyncedIsNoop(o: ObjectState, views: seq<PageView>)
    requires UniqueIds(views)
    requires Synced(o, views)
    ensures BindAll(o, views).attrs == o.attrs
  {
    var r := BindAll(o, views);
    assert BoundKeys(views) <= o.attrs.Keys;
    forall k | k in o.attrs
      ensures r.attrs[k] == o.attrs[k]
    {
      if k in BoundKeys(views) {
        var i :| 0 <= i < |views| && Bound(views[i]) && k == ViewKey(views[i].id);
        BindAllMirrors(o, views, i);
      }
    }
  }

  /** Construction without `views` launches the default registry over the constructed state. */
  lemma InitializeWithDefaultViews(env: Environment, build: (string, Value) -> Option<Value>, initial: Record)
    requires HashDecodes(env.hash, env.parse)
    ensures var attrs := SetupState(env.hash, env.parse, env.dataset, initial).value;
      var views := DefaultViews(attrs, build);
      && Launch(attrs, views, env.dataset.querySnapshot).Some?
      && Initialize(env, build, Options(None, initial)) == Success(Launch(attrs, views, env.dataset.querySnapshot).value)
  {
  }

  /** Default views built from the slots their own binding wrote are the same views. */
  lemma DefaultViewsRebuilt(attrs0: Record, s: Record, build: (string, Value) -> Option<Value>)
    requires Stable(build)
    requires s == BindAll(ObjectState(attrs0, 0), DefaultViews(attrs0, build)).attrs
    ensures DefaultViews(s, build) == DefaultViews(attrs0, build)
  {
    var views := DefaultViews(attrs0, build);
    var views' := DefaultViews(s, build);
    BindAllSyncs(ObjectState(attrs0, 0), views);
    forall i | 0 <= i < 4
      ensures views'[i] == views[i]
    {
      var key := ViewKey(views[i].id);
      if Bound(views[i]) {
        assert s[key] == views[i].state.value;
      } else {
        assert key !in BoundKeys(views);
        assert Get(s, key) == Get(attrs0, key);
      }
    }
  }

  /**
   What can happen to a running explorer: a navigation click, a change
   upstream of its state, or a report to its alert area.
   */
  datatype Action = Navigate(name: Value) | Propagate(ev: Upstream) | Alert(report: Report)

  /**
   One action: a click runs `_onSwitchView`, an upstream change runs its
   subscribed handler, a report runs the alert handler it reaches.
   */
  function Apply(e: Explorer, a: Action): Explorer {
    match a
    case Navigate(name) => SwitchView(e, name)
    case Propagate(ev) => e.(session := Step(e.session, ev))
    case Alert(report) => e.(alerts := Handle(e.alerts, report))
  }

  /** A sequence of actions applied one after another. */
  function Replay(e: Explorer, acts: seq<Action>): Explorer
    decreases |acts|
  {
    if |acts| == 0 then e else Replay(Apply(e, acts[0]), acts[1..])
  }

  /**
   When restore can be expected to reproduce the effect of `a`: a click names
   a view (an empty or missing `data-view` hides every view, while restore
   would show the first), and a sub-view rebuilt from the snapshot it reported
   reports that same snapshot.
   */
  ghost predicate Admissible(build: (string, Value) -> Option<Value>, e: Explorer, a: Action) {
    match a
    case Navigate(name) => Truthy(name)
    case Propagate(ev) =>
      HitsBoundView(e.session.views, ev) ==> build(e.session.views[ev.index].id, ev.snapshot) == Some(ev.snapshot)
    case Alert(_) => true
  }

  /** Every action of `acts` is admissible at the point where it happens. */
  ghost predicate AdmissibleRun(build: (string, Value) -> Option<Value>, e: Explorer, acts: seq<Action>)
    decreases |acts|
  {
    |acts| == 0 || (Admissible(build, e, acts[0]) && AdmissibleRun(build, Apply(e, acts[0]), acts[1..]))
  }

  /**
   An explorer its own state describes completely: the registry is the
   default one built from the state's view slots, every slot mirrors its
   view, the navigation is the initial one for the stored `currentView`, the
   read-only flag is the stored one, and every default key is present.
   */
  ghost predicate Restorable(build: (string, Value) -> Option<Value>, e: Explorer) {
    var attrs := e.session.state.attrs;
    && e.session.views == DefaultViews(attrs, build)
    && Synced(e.session.state, e.session.views)
    && InitialView(attrs, e.session.views).Some?
    && e.nav == UpdateNav(e.session.views, InitialView(attrs, e.session.views).value)
    && e.readOnly == Truthy(Get(attrs, "readOnly"))
    && DefaultKeys <= attrs.Keys
  }

  /** The default views launched over a state are the ones its launched state's slots rebuild. */
  lemma LaunchRebuildsViews(attrs0: Record, build: (string, Value) -> Option<Value>, query: Value)
    requires Stable(build)
    ensures Launch(attrs0, DefaultViews(attrs0, build), query).Some?
    ensures var e := Launch(attrs0, DefaultViews(attrs0, build), query).value;
      e.session.views == DefaultViews(e.session.state.attrs, build)
  {
    var views := DefaultViews(attrs0, build);
    var bound := BindAll(ObjectState(attrs0, 0), views);
    var e := Launch(attrs0, views, query).value;
    assert e.session.state.attrs == bound.attrs;
    assert e.session.views == views;
    DefaultViewsRebuilt(attrs0, bound.attrs, build);
  }

  /** Launching the default views over a state gives an explorer that state describes. */
  lemma LaunchRestorable(attrs0: Record, build: (string, Value) -> Option<Value>, query: Value)
    requires Stable(build)
    requires DefaultKeys <= attrs0.Keys
    ensures Launch(attrs0, DefaultViews(attrs0, build), query).Some?
    ensures Restorable(build, Launch(attrs0, DefaultViews(attrs0, build), query).value)
  {
    LaunchRebuildsViews(attrs0, build, query);
  }

  /** An explorer built over the default views is described by its own state. */
  lemma InitializeRestorable(env: Environment, build: (string, Value) -> Option<Value>, initial: Record)
    requires Stable(build)
    requires HashDecodes(env.hash, env.parse)
    ensures Initialize(env, build, Options(None, initial)).Success?
    ensures Restorable(build, Initialize(env, build, Options(None, initial)).value)
  {
    var attrs0 := SetupState(env.hash, env.parse, env.dataset, initial).value;
    InitializeWithDefaultViews(env, build, initial);
    LaunchRestorable(attrs0, build, env.dataset.querySnapshot);
  }

  /** Two records that agree on the default views' slots build the same default views. */
  lemma DefaultViewsFromSlots(a: Record, b: Record, build: (string, Value) -> Option<Value>)
    requires forall id :: id in {"grid", "graph", "map", "timeline"} ==> Get(a, ViewKey(id)) == Get(b, ViewKey(id))
    ensures DefaultViews(a, build) == DefaultViews(b, build)
  {
    var va := DefaultViews(a, build);
    var vb := DefaultViews(b, build);
    forall i | 0 <= i < 4
      ensures va[i] == vb[i]
    {
      assert va[i].id in {"grid", "graph", "map", "timeline"};
    }
  }

  /** A navigation to a truthy name keeps an explorer described by its own state. */
  lemma SwitchKeepsRestorable(build: (string, Value) -> Option<Value>, e: Explorer, name: Value)
    requires Restorable(build, e)
    requires Truthy(name)
    ensures Restorable(build, SwitchView(e, name))
  {
    var attrs := e.session.state.attrs;
    var r := SwitchView(e, name);
    forall id | id in {"grid", "graph", "map", "timeline"}
      ensures Get(r.session.state.attrs, ViewKey(id)) == Get(attrs, ViewKey(id))
    {
      ViewKeyAvoidsReserved(id);
    }
    DefaultViewsFromSlots(r.session.state.attrs, attrs, build);
    SwitchKeepsSynced(e, name);
  }

  /** A query change keeps an explorer described by its own state. */
  lemma QueryStepKeepsRestorable(build: (string, Value) -> Option<Value>, e: Explorer, q: Value)
    requires Restorable(build, e)
    ensures Restorable(build, e.(session := Step(e.session, QueryChanged(q))))
  {
    var attrs := e.session.state.attrs;
    var attrs' := Step(e.session, QueryChanged(q)).state.attrs;
    StepKeepsSynced(e.session, QueryChanged(q));
    forall id | id in {"grid", "graph", "map", "timeline"}
      ensures Get(attrs', ViewKey(id)) == Get(attrs, ViewKey(id))
    {
      ViewKeyAvoidsReserved(id);
    }
    DefaultViewsFromSlots(attrs', attrs, build);
  }

  /**
   After a bound sub-view's change, the default views rebuilt from the new
   state are the live registry, provided the sub-view reproduces its snapshot.
   */
  lemma ViewStepRebuildsViews(build: (string, Value) -> Option<Value>, e: Explorer, ev: Upstream)
    requires Restorable(build, e)
    requires HitsBoundView(e.session.views, ev)
    requires build(e.session.views[ev.index].id, ev.snapshot) == Some(ev.snapshot)
    ensures DefaultViews(Step(e.session, ev).state.attrs, build) == Step(e.session, ev).views
  {
    var views := e.session.views;
    var i := ev.index;
    var s' := Step(e.session, ev);
    var rebuilt := DefaultViews(s'.state.attrs, build);
    forall j | 0 <= j < 4
      ensures rebuilt[j] == s'.views[j]
    {
      if j != i && ViewKey(views[j].id) == ViewKey(views[i].id) {
        ViewKeyInjective(views[j].id, views[i].id);
      }
    }
  }

  /** A sub-view's change leaves the stored `currentView`, the read-only flag and the navigation alone. */
  lemma ViewStepKeepsNav(build: (string, Value) -> Option<Value>, e: Explorer, ev: Upstream)
    requires Restorable(build, e)
    requires HitsBoundView(e.session.views, ev)
    ensures var s' := Step(e.session, ev);
      && InitialView(s'.state.attrs, s'.views) == InitialView(e.session.state.attrs, e.session.views)
      && e.nav == UpdateNav(s'.views, InitialView(s'.state.attrs, s'.views).value)
      && Get(s'.state.attrs, "readOnly") == Get(e.session.state.attrs, "readOnly")
  {
    var attrs := e.session.state.attrs;
    var views := e.session.views;
    var s' := Step(e.session, ev);
    ViewKeyAvoidsReserved(views[ev.index].id);
    assert Get(s'.state.attrs, "currentView") == Get(attrs, "currentView");
    var name := InitialView(attrs, views).value;
    assert UpdateNav(s'.views, name) == e.nav by {
      assert forall j :: 0 <= j < |e.nav| ==> UpdateNav(s'.views, name)[j] == e.nav[j];
    }
  }

  /**
   A change of a bound sub-view keeps an explorer described by its own state,
   provided the sub-view reproduces its new snapshot when rebuilt from it.
   */
  lemma ViewStepKeepsRestorable(build: (string, Value) -> Option<Value>, e: Explorer, ev: Upstream)
    requires Restorable(build, e)
    requires HitsBoundView(e.session.views, ev)
    requires build(e.session.views[ev.index].id, ev.snapshot) == Some(ev.snapshot)
    ensures Restorable(build, e.(session := Step(e.session, ev)))
  {
    StepKeepsSynced(e.session, ev);
    ViewStepRebuildsViews(build, e, ev);
    ViewStepKeepsNav(build, e, ev);
  }

  /**
   An upstream change keeps an explorer described by its own state, provided
   a changed sub-view reproduces its new snapshot when rebuilt from it.
   */
  lemma StepKeepsRestorable(build: (string, Value) -> Option<Value>, e: Explorer, ev: Upstream)
    requires Restorable(build, e)
    requires HitsBoundView(e.session.views, ev) ==> build(e.session.views[ev.index].id, ev.snapshot) == Some(ev.snapshot)
    ensures Restorable(build, e.(session := Step(e.session, ev)))
  {
    if ev.QueryChanged? {
      QueryStepKeepsRestorable(build, e, ev.snapshot);
    } else if HitsBoundView(e.session.views, ev) {
      ViewStepKeepsRestorable(build, e, ev);
    }
  }

  /** Every admissible run of actions keeps an explorer described by its own state. */
  lemma {:induction false} ReplayKeepsRestorable(build: (string, Value) -> Option<Value>, e: Explorer, acts: seq<Action>)
    requires Restorable(build, e)
    requires AdmissibleRun(build, e, acts)
    ensures Restorable(build, Replay(e, acts))
    decreases |acts|
  {
    if |acts| > 0 {
      match acts[0] {
        case Navigate(name) => SwitchKeepsRestorable(build, e, name);
        case Propagate(ev) => StepKeepsRestorable(build, e, ev);
        case Alert(_) =>
      }
      ReplayKeepsRestorable(build, Apply(e, acts[0]), acts[1..]);
    }
  }

  /**
   Every run of actions keeps the alert area consistent: alert ids keep
   increasing and a timer stays armed exactly for the alerts that expire.
   */
  lemma {:induction false} ReplayKeepsAlertsConsistent(e: Explorer, acts: seq<Action>)
    requires Consistent(e.alerts)
    ensures Consistent(Replay(e, acts).alerts)
    decreases |acts|
  {
    if |acts| > 0 {
      match acts[0] {
        case Alert(report) => HandleKeepsConsistent(e.alerts, report);
        case _ =>
      }
      ReplayKeepsAlertsConsistent(Apply(e, acts[0]), acts[1..]);
    }
  }

  /**
   `restore` applied to the state of an explorer that state describes gives
   back that explorer's state, registry, navigation and read-only flag.
   */
  lemma RestoreReproduces(env: Environment, build: (string, Value) -> Option<Value>, e: Explorer)
    requires HashDecodes(env.hash, env.parse)
    requires Restorable(build, e)
    ensures Restore(env, build, e.session.state.attrs).Success?
    ensures Restore(env, build, e.session.state.attrs).value.session.state.attrs == e.session.state.attrs
    ensures Restore(env, build, e.session.state.attrs).value.session.views == e.session.views
    ensures Restore(env, build, e.session.state.attrs).value.nav == e.nav
    ensures Restore(env, build, e.session.state.attrs).value.readOnly == e.readOnly
  {
    var attrs := e.session.state.attrs;
    SetupStateRoundTrip(env.hash, env.parse, env.dataset, attrs);
    InitializeWithDefaultViews(env, build, attrs);
    assert Synced(ObjectState(attrs, 0), e.session.views);
    BindSyncedIsNoop(ObjectState(attrs, 0), e.session.views);
  }

  /**
   `restore`, under a hash that decodes, gives back the composite state, the
   registry, the navigation and the read-only flag of `e`.
   */
  ghost predicate RestoredAs(env: Environment, build: (string, Value) -> Option<Value>, e: Explorer) {
    var r := Restore(env, build, e.session.state.attrs);
    && r.Success?
    && r.value.session.state.attrs == e.session.state.attrs
    && r.value.session.views == e.session.views
    && r.value.nav == e.nav
    && r.value.readOnly == e.readOnly
  }

  /**
   An explorer its own state describes can be restored from that state after
   any admissible run of clicks and upstream changes.
   */
  lemma RestoreAfterReplay(env: Environment, build: (string, Value) -> Option<Value>, e: Explorer, acts: seq<Action>)
    requires Restorable(build, e)
    requires AdmissibleRun(build, e, acts)
    requires HashDecodes(env.hash, env.parse)
    ensures RestoredAs(env, build, Replay(e, acts))
  {
    ReplayKeepsRestorable(build, e, acts);
    RestoreReproduces(env, build, Replay(e, acts));
  }

  /**
   Restoring a default-view explorer from its own serialized state, straight
   after construction or after any admissible run of clicks and upstream
   changes, reproduces its composite state, its registry, its navigation and
   its read-only flag, under any hash that decodes.
   */
  lemma RestoreRoundTrip(env: Environment, env': Environment, build: (string, Value) -> Option<Value>, initial: Record)
    requires Stable(build)
    requires HashDecodes(env.hash, env.parse)
    requires HashDecodes(env'.hash, env'.parse)
    ensures Initialize(env, build, Options(None, initial)).Success?
    ensures forall acts :: AdmissibleRun(build, Initialize(env, build, Options(None, initial)).value, acts) ==>
      RestoredAs(env', build, Replay(Initialize(env, build, Options(None, initial)).value, acts))
  {
    InitializeRestorable(env, build, initial);
    var e0 := Initialize(env, build, Options(None, initial)).value;
    forall acts | AdmissibleRun(build, e0, acts)
      ensures RestoredAs(env', build, Replay(e0, acts))
    {
      RestoreAfterReplay(env', build, e0, acts);
    }
  }

  /** A state without a truthy `currentView` restores to an explorer showing the first view. */
  lemma RestoreShowsFirstView(env: Environment, build: (string, Value) -> Option<Value>, serialized: Record)
    requires HashDecodes(env.hash, env.parse)
    requires !Truthy(Get(serialized, "currentView"))
    ensures Restore(env, build, serialized).Success?
    ensures Restore(env, build, serialized).value.nav[0] == Shown
  {
    var r := Initialize(env, build, Options(None, serialized));
    assert |r.value.session.views| == 4;
  }

  /** A click on an empty name shows none of the default views, and stores the empty name. */
  lemma EmptyClickShowsNothing(e: Explorer, attrs: Record, build: (string, Value) -> Option<Value>)
    requires e.session.views == DefaultViews(attrs, build)
    ensures ShownCount(SwitchView(e, Str("")).nav) == 0
    ensures !Truthy(Get(SwitchView(e, Str("")).session.state.attrs, "currentView"))
  {
    assert !Registered(e.session.views, Str(""));
    ShownCountOfNav(e.session.views, Str(""));
  }

  /**
   Why a click must name a view for the round trip: after a click on an empty
   name no view is shown, yet the explorer restored from that state shows the
   first view.
   */
  lemma EmptyClickIsNotRestored(env: Environment, env': Environment, build: (string, Value) -> Option<Value>, initial: Record)
    requires HashDecodes(env.hash, env.parse)
    requires HashDecodes(env'.hash, env'.parse)
    ensures var e := SwitchView(Initialize(env, build, Options(None, initial)).value, Str(""));
      var e' := Restore(env', build, e.session.state.attrs);
      && ShownCount(e.nav) == 0
      && e'.Success? && e'.value.nav[0] == Shown
  {
    var e0 := Initialize(env, build, Options(None, initial)).value;
    EmptyClickShowsNothing(e0, SetupState(env.hash, env.parse, env.dataset, initial).value, build);
    RestoreShowsFirstView(env', build, SwitchView(e0, Str("")).session.state.attrs);
  }
}

=== FILE: navigation.dfy ===
/**
 The explorer's registry of page views and the single-active-view rule of
 `updateNav`: which view is shown first, and which views a navigation to a
 given name shows and hides.
 */
module Navigation {
  import opened Results
  import opened JsValue
  import opened CompositeState

  /**
   A registry entry `{id, label, view}`. The view itself is opaque; `state` is
   the snapshot `view.state.toJSON()` when the view carries a bindable state
   object, and `None` when it has none.
   */
  datatype PageView = PageView(id: string, caption: string, state: Option<Value>)

  /** No two registry entries share an id. */
  predicate UniqueIds(views: seq<PageView>) {
    forall i, j :: 0 <= i < j < |views| ==> views[i].id != views[j].id
  }

  /** `name` is the id of some registered view (ids are compared with `===`). */
  predicate Registered(views: seq<PageView>, name: Value) {
    exists i :: 0 <= i < |views| && name == Str(views[i].id)
  }

  /**
   The registry used when the caller passes no `views`: Grid, Graph, Map and
   Timeline, each built from its own slot of the composite state. `build`
   stands for the opaque sub-view constructors; it returns the new view's
   state snapshot, if the view has a state object.
   */
  function DefaultViews(attrs: Record, build: (string, Value) -> Option<Value>): (r: seq<PageView>)
    ensures |r| == 4
    ensures r[0].id == "grid" && r[1].id == "graph" && r[2].id == "map" && r[3].id == "timeline"
    ensures r[0].caption == "Grid" && r[1].caption == "Graph" && r[2].caption == "Map" && r[3].caption == "Timeline"
    ensures forall i :: 0 <= i < |r| ==> r[i].state == build(r[i].id, Get(attrs, ViewKey(r[i].id)))
    ensures UniqueIds(r)
  {
    var entry := (id: string, caption: string) => PageView(id, caption, build(id, Get(attrs, ViewKey(id))));
    [entry("grid", "Grid"), entry("graph", "Graph"), entry("map", "Map"), entry("timeline", "Timeline")]
  }

  /** Whether `updateNav` shows or hides one view. */
  datatype Visibility = Shown | Hidden

  /**
   `updateNav(pageName)`: the view whose id is `pageName` is shown (and its
   navigation link marked active), every other view is hidden. A name that
   matches no id hides every view.
   */
  function UpdateNav(views: seq<PageView>, name: Value): (r: seq<Visibility>)
    ensures |r| == |views|
    ensures forall i :: 0 <= i < |views| ==> (r[i] == Shown <==> name == Str(views[i].id))
    decreases |views|
  {
    if |views| == 0 then []
    else [if name == Str(views[0].id) then Shown else Hidden] + UpdateNav(views[1..], name)
  }

  /** The number of views a navigation shows. */
  function ShownCount(vis: seq<Visibility>): nat
    decreases |vis|
  {
    if |vis| == 0 then 0 else (if vis[0] == Shown then 1 else 0) + ShownCount(vis[1..])
  }

  /**
   With unique ids a navigation shows exactly one view when the name is
   registered and none when it is not.
   */
  lemma {:induction false} ShownCountOfNav(views: seq<PageView>, name: Value)
    requires UniqueIds(views)
    ensures ShownCount(UpdateNav(views, name)) == if Registered(views, name) then 1 else 0
    decreases |views|
  {
    if |views| > 0 {
      var nav := UpdateNav(views, name);
      var rest := views[1..];
      assert UniqueIds(rest);
      ShownCountOfNav(rest, name);
      assert nav[1..] == UpdateNav(rest, name);
      if name == Str(views[0].id) {
        assert Registered(views, name);
        assert !Registered(rest, name);
      } else {
        if Registered(views, name) {
          var j :| 0 <= j < |views| && name == Str(views[j].id);
          assert name == Str(rest[j - 1].id);
        }
        if Registered(rest, name) {
          var j :| 0 <= j < |rest| && name == Str(rest[j].id);
          assert name == Str(views[j + 1].id);
        }
      }
    }
  }

  /** With unique ids no navigation ever shows two views. */
  lemma AtMostOneShown(views: seq<PageView>, name: Value)
    requires UniqueIds(views)
    ensures ShownCount(UpdateNav(views, name)) <= 1
    ensures ShownCount(UpdateNav(views, name)) == 1 <==> Registered(views, name)
  {
    ShownCountOfNav(views, name);
  }

  /**
   The name `initialize` navigates to: the `currentView` slot when it is
   truthy, otherwise the id of the first registered view. `None` is the
   TypeError of reading `pageViews[0].id` from an empty registry.
   */
  function InitialView(attrs: Record, views: seq<PageView>): (r: Option<Value>)
    ensures Truthy(Get(attrs, "currentView")) ==> r == Some(attrs["currentView"])
    ensures !Truthy(Get(attrs, "currentView")) && |views| > 0 ==> r == Some(Str(views[0].id))
    ensures r.None? <==> !Truthy(Get(attrs, "currentView")) && |views| == 0
  {
    var current := Get(attrs, "currentView");
    if Truthy(current) then Some(current)
    else if |views| > 0 then Some(Str(views[0].id))
    else None
  }

  /**
   Without a `currentView` the first view is the one shown, and with unique
   ids it is the only one.
   */
  lemma FirstViewShownByDefault(attrs: Record, views: seq<PageView>)
    requires !Truthy(Get(attrs, "currentView"))
    requires |views| > 0
    requires UniqueIds(views)
    ensures InitialView(attrs, views).Some?
    ensures UpdateNav(views, InitialView(attrs, views).value)[0] == Shown
    ensures ShownCount(UpdateNav(views, InitialView(attrs, views).value)) == 1
  {
    var name := InitialView(attrs, views).value;
    assert Registered(views, name) by {
      assert name == Str(views[0].id);
    }
    ShownCountOfNav(views, name);
  }
}

=== FILE: notifications.dfy ===
/**
 The explorer's notification area: `notify`, `clearNotifications`, the
 auto-removal timers `notify` schedules, and the handlers that report the
 dataset's query and fetch lifecycle through it.
 */
module Notifications {
  import opened Results
  import opened JsValue

  /**
   One displayed alert. `id` names it for its removal timer; `loader` selects
   the spinner template; `expires` records that a removal was scheduled.
   */
  datatype Notice = Notice(id: nat, message: Value, category: Value, loader: bool, expires: bool)

  /**
   The alert area: the alerts in display order, the id the next alert gets,
   and the ids whose removal timers have not fired yet.
   */
  datatype Center = Center(shown: seq<Notice>, next: nat, pending: set<nat>)

  /** The empty alert area of a freshly rendered explorer. */
  const EmptyCenter: Center := Center([], 0, {})

  /**
   Ids are issued in increasing order, every shown alert has a pending timer
   exactly when it expires, and no timer refers to an id not yet issued.
   */
  ghost predicate Consistent(c: Center) {
    && (forall i, j :: 0 <= i < j < |c.shown| ==> c.shown[i].id < c.shown[j].id)
    && (forall i :: 0 <= i < |c.shown| ==> c.shown[i].id < c.next)
    && (forall i :: 0 <= i < |c.shown| ==> (c.shown[i].id in c.pending <==> c.shown[i].expires))
    && (forall k :: k in c.pending ==> k < c.next)
  }

  /** The defaults `notify` lays a flash over. */
  const NotifyDefaults: Record := map["message" := Str("Loading"), "category" := Str("warning"), "loader" := Bool(false)]

  /**
   `notify(flash)`: a new alert is appended whose message, category and
   loader flag come from the flash where it has them and from the defaults
   otherwise; its removal is scheduled exactly when `flash.persist` is falsy,
   whatever the loader flag says.
   */
  function Notify(c: Center, flash: Record): (r: Center)
    ensures r.next == c.next + 1
    ensures |r.shown| == |c.shown| + 1
    ensures r.shown[..|c.shown|] == c.shown
    ensures r.shown[|c.shown|].id == c.next
    ensures r.shown[|c.shown|].message == if "message" in flash then flash["message"] else Str("Loading")
    ensures r.shown[|c.shown|].category == if "category" in flash then flash["category"] else Str("warning")
    ensures r.shown[|c.shown|].loader <==> "loader" in flash && Truthy(flash["loader"])
    ensures r.shown[|c.shown|].expires <==> !Truthy(Get(flash, "persist"))
    ensures r.pending == if Truthy(Get(flash, "persist")) then c.pending else c.pending + {c.next}
  {
    var data := Extend(NotifyDefaults, flash);
    var expires := !Truthy(Get(flash, "persist"));
    var notice := Notice(c.next, data["message"], data["category"], Truthy(data["loader"]), expires);
    Center(c.shown + [notice], c.next + 1, if expires then c.pending + {c.next} else c.pending)
  }

  /** Whether a notice is scheduled for removal does not depend on its loader flag. */
  lemma AutoRemovalIgnoresLoader(c: Center, flash: Record, loader: Value)
    ensures Notify(c, flash["loader" := loader]).pending == Notify(c, flash).pending
    ensures Notify(c, flash["loader" := loader]).shown[|c.shown|].expires
        == Notify(c, flash).shown[|c.shown|].expires
  {
    assert Get(flash["loader" := loader], "persist") == Get(flash, "persist");
  }

  /** `notify` keeps the alert area consistent. */
  lemma NotifyKeepsConsistent(c: Center, flash: Record)
    requires Consistent(c)
    ensures Consistent(Notify(c, flash))
  {
  }

  /** The alerts of `s` other than the one with this id, in order. */
  function Without(s: seq<Notice>, id: nat): (r: seq<Notice>)
    ensures forall n :: n in r <==> n in s && n.id != id
    ensures |r| <= |s|
    decreases |s|
  {
    if |s| == 0 then []
    else if s[0].id == id then Without(s[1..], id)
    else [s[0]] + Without(s[1..], id)
  }

  /** Removing an id that no alert carries changes nothing. */
  lemma {:induction false} WithoutAbsent(s: seq<Notice>, id: nat)
    requires forall i :: 0 <= i < |s| ==> s[i].id != id
    ensures Without(s, id) == s
    decreases |s|
  {
    if |s| > 0 {
      WithoutAbsent(s[1..], id);
    }
  }

  /** Removing by id distributes over concatenation. */
  lemma {:induction false} WithoutAppend(s: seq<Notice>, t: seq<Notice>, id: nat)
    ensures Without(s + t, id) == Without(s, id) + Without(t, id)
    decreases |s|
  {
    if |s| > 0 {
      assert (s + t)[0] == s[0];
      assert (s + t)[1..] == s[1..] + t;
      WithoutAppend(s[1..], t, id);
      if s[0].id != id {
        calc {
          Without(s + t, id);
          [s[0]] + Without(s[1..] + t, id);
          [s[0]] + (Without(s[1..], id) + Without(t, id));
          ([s[0]] + Without(s[1..], id)) + Without(t, id);
          Without(s, id) + Without(t, id);
        }
      } else {
        calc {
          Without(s + t, id);
          Without(s[1..] + t, id);
          Without(s[1..], id) + Without(t, id);
          Without(s, id) + Without(t, id);
        }
      }
    } else {
      assert s + t == t;
    }
  }

  /**
   A removal timer firing: the first time, it removes its alert if that is
   still displayed; a timer that has already fired does nothing.
   */
  function Tick(c: Center, id: nat): (r: Center)
    ensures id in c.pending ==> r.pending == c.pending - {id}
    ensures forall n :: n in r.shown <==> n in c.shown && (id !in c.pending || n.id != id)
    ensures r.next == c.next
    ensures id !in r.pending
    ensures id !in c.pending ==> r == c
  {
    if id in c.pending then Center(Without(c.shown, id), c.next, c.pending - {id}) else c
  }

  /** A removal timer firing a second time is a no-op. */
  lemma TickIdempotent(c: Center, id: nat)
    ensures Tick(Tick(c, id), id) == Tick(c, id)
  {
  }

  /**
   A flash without `persist`, once its timer fires, leaves the alert area
   exactly as it was before the flash.
   */
  lemma NotifyThenTick(c: Center, flash: Record)
    requires Consistent(c)
    requires !Truthy(Get(flash, "persist"))
    ensures Tick(Notify(c, flash), c.next).shown == c.shown
    ensures Tick(Notify(c, flash), c.next).pending == c.pending
  {
    var n := Notify(c, flash);
    var notice := n.shown[|c.shown|];
    assert n.shown == c.shown + [notice];
    WithoutAppend(c.shown, [notice], c.next);
    WithoutAbsent(c.shown, c.next);
    assert Without([notice], c.next) == [];
  }

  /** Timers firing, in the given order. */
  function TickAll(c: Center, ids: seq<nat>): Center
    decreases |ids|
  {
    if |ids| == 0 then c else TickAll(Tick(c, ids[0]), ids[1..])
  }

  /** Timer firings keep the alert area consistent. */
  lemma TickKeepsConsistent(c: Center, id: nat)
    requires Consistent(c)
    ensures Consistent(Tick(c, id))
  {
    if id in c.pending {
      WithoutKeepsOrder(c.shown, id);
    }
  }

  /** Removing by id keeps every survivor's position relative to the others. */
  lemma {:induction false} WithoutKeepsOrder(s: seq<Notice>, id: nat)
    requires forall i, j :: 0 <= i < j < |s| ==> s[i].id < s[j].id
    ensures forall i, j :: 0 <= i < j < |Without(s, id)| ==> Without(s, id)[i].id < Without(s, id)[j].id
    decreases |s|
  {
    if |s| > 0 {
      WithoutKeepsOrder(s[1..], id);
      var rest := Without(s[1..], id);
      if s[0].id != id {
        forall j | 0 <= j < |rest|
          ensures s[0].id < rest[j].id
        {
          assert rest[j] in s[1..];
        }
      }
    }
  }

  /** No timer can remove a persistent alert: only `clearNotifications` does. */
  lemma {:induction false} PersistentSurvivesTicks(c: Center, ids: seq<nat>, n: Notice)
    requires Consistent(c)
    requires n in c.shown
    requires !n.expires
    ensures n in TickAll(c, ids).shown
    decreases |ids|
  {
    if |ids| > 0 {
      TickKeepsConsistent(c, ids[0]);
      PersistentSurvivesTicks(Tick(c, ids[0]), ids[1..], n);
    }
  }

  /** `clearNotifications()`: every alert is removed, whatever its kind; timers stay armed. */
  function Clear(c: Center): (r: Center)
    ensures |r.shown| == 0
    ensures r.next == c.next && r.pending == c.pending
  {
    c.(shown := [])
  }

  /** Timers that fire after a clear find nothing left to remove. */
  lemma TicksAfterClearAreHarmless(c: Center, ids: seq<nat>)
    ensures |TickAll(Clear(c), ids).shown| == 0
  {
    TicksFromEmpty(Clear(c), ids);
  }

  /** Timers firing on an empty alert area leave it empty. */
  lemma {:induction false} TicksFromEmpty(c: Center, ids: seq<nat>)
    requires |c.shown| == 0
    ensures |TickAll(c, ids).shown| == 0
    decreases |ids|
  {
    if |ids| > 0 {
      var c' := Tick(c, ids[0]);
      assert |c'.shown| == 0;
      TicksFromEmpty(c', ids[1..]);
    }
  }

  /** `query:start`: a persistent loader alert is added with the default message. */
  function OnQueryStart(c: Center): (r: Center)
    ensures |r.shown| == |c.shown| + 1
    ensures r.shown[..|c.shown|] == c.shown
    ensures r.shown[|c.shown|] == Notice(c.next, Str("Loading"), Str("warning"), true, false)
    ensures r.pending == c.pending
  {
    Notify(c, map["loader" := Bool(true), "persist" := Bool(true)])
  }

  /** The text shown in the result count: `model.docCount || 'Unknown'`. */
  function DocCountText(docCount: Value): (r: Value)
    ensures Truthy(docCount) ==> r == docCount
    ensures !Truthy(docCount) ==> r == Str("Unknown")
  {
    if Truthy(docCount) then docCount else Str("Unknown")
  }

  /** The alert area and the result-count text after `query:done`. */
  datatype Done = Done(center: Center, countText: Value)

  /** `query:done`: every alert, the loader included, is cleared and the count refreshed. */
  function OnQueryDone(c: Center, docCount: Value): (r: Done)
    ensures |r.center.shown| == 0
    ensures r.center.next == c.next
    ensures r.center.pending == c.pending
    ensures Truthy(r.countText)
    ensures Truthy(docCount) ==> r.countText == docCount
    ensures !Truthy(docCount) ==> r.countText == Str("Unknown")
  {
    Done(Clear(c), DocCountText(docCount))
  }

  /** The message shown for a query failure that is neither text nor an object. */
  const GenericQueryError: string := "There was an error querying the backend"

  /**
   The message the `query:fail` handler derives from the failure value: text
   verbatim; for an object, `title + ': '` when the title is truthy followed
   by the message when that is truthy; anything else the generic message.
   `None` is the TypeError of reading `title` from `null`, whose `typeof` is
   also "object".
   */
  function FailureMessage(error: Value): (r: Option<string>)
    ensures TypeOf(error) == "string" ==> r == Some(error.s)
    ensures TypeOf(error) != "string" && TypeOf(error) != "object" ==> r == Some(GenericQueryError)
    ensures r.None? <==> error.Null?
    ensures error.Obj? ==>
      var title := Get(error.fields, "title");
      var message := Get(error.fields, "message");
      r == Some((if Truthy(title) then ToStr(title) + ": " else "") + (if Truthy(message) then ToStr(message) else ""))
    ensures error.Arr? ==> r == Some("")
  {
    if TypeOf(error) == "string" then Some(error.s)
    else if TypeOf(error) == "object" then
      match (Prop(error, "title"), Prop(error, "message"))
      case (Some(title), Some(message)) =>
        var head := if Truthy(title) then ToStr(title) + ": " else "";
        assert head + "" == head;
        Some(if Truthy(message) then head + ToStr(message) else head)
      case _ => None
    else Some(GenericQueryError)
  }

  /** A structured failure with a title and a message is shown as `title: message`. */
  lemma TitledFailureMessage(title: string, message: string)
    requires title != "" && message != ""
    ensures FailureMessage(Obj(map["title" := Str(title), "message" := Str(message)]))
         == Some(title + ": " + message)
  {
  }

  /** The outcome of a handler that may throw after it has already acted. */
  datatype Handled = Handled(center: Center, threw: bool)

  /**
   `query:fail`: every alert is cleared, then one persistent error alert
   carrying the derived message is added. A `null` failure throws after the
   clear, leaving the area empty.
   */
  function OnQueryFail(c: Center, error: Value): (r: Handled)
    ensures r.threw <==> error.Null?
    ensures r.threw ==> |r.center.shown| == 0
    ensures !r.threw ==> |r.center.shown| == 1
    ensures !r.threw ==> r.center.shown[0] == Notice(c.next, Str(FailureMessage(error).value), Str("error"), false, false)
    ensures r.center.pending == c.pending
  {
    var cleared := Clear(c);
    match FailureMessage(error)
    case None => Handled(cleared, true)
    case Some(msg) =>
      Handled(Notify(cleared, map["message" := Str(msg), "category" := Str("error"), "persist" := Bool(true)]), false)
  }

  /** The loader `query:start` adds outlives every removal timer; only a settled query clears it. */
  lemma LoaderOutlivesTimers(c: Center, ids: seq<nat>)
    requires Consistent(c)
    ensures OnQueryStart(c).shown[|c.shown|] in TickAll(OnQueryStart(c), ids).shown
  {
    NotifyKeepsConsistent(c, map["loader" := Bool(true), "persist" := Bool(true)]);
    PersistentSurvivesTicks(OnQueryStart(c), ids, OnQueryStart(c).shown[|c.shown|]);
  }

  /** The error alert `query:fail` leaves behind outlives every removal timer. */
  lemma FailureAlertOutlivesTimers(c: Center, error: Value, ids: seq<nat>)
    requires Consistent(c)
    requires !error.Null?
    ensures OnQueryFail(c, error).center.shown[0] in TickAll(OnQueryFail(c, error).center, ids).shown
  {
    var flash := map["message" := Str(FailureMessage(error).value), "category" := Str("error"), "persist" := Bool(true)];
    NotifyKeepsConsistent(Clear(c), flash);
    var after := OnQueryFail(c, error).center;
    assert after == Notify(Clear(c), flash);
    PersistentSurvivesTicks(after, ids, after.shown[0]);
  }

  /**
   The initial fetch failing: a persistent error alert carrying
   `error.message` (possibly `undefined`) is added without clearing anything;
   reading `message` from `null` or `undefined` throws.
   */
  function OnFetchFail(c: Center, error: Value): (r: Handled)
    ensures r.threw <==> error.Null? || error.Undefined?
    ensures r.threw ==> r.center == c
    ensures !r.threw ==> |r.center.shown| == |c.shown| + 1 && r.center.shown[..|c.shown|] == c.shown
    ensures !r.threw ==> r.center.shown[|c.shown|] == Notice(c.next, Prop(error, "message").value, Str("error"), false, false)
    ensures !r.threw ==> r.center.next == c.next + 1
    ensures r.center.pending == c.pending
  {
    match Prop(error, "message")
    case None => Handled(c, true)
    case Some(message) =>
      Handled(Notify(c, map["message" := message, "category" := Str("error"), "persist" := Bool(true)]), false)
  }

  /** The alert a failed fetch adds survives any sequence of removal timers. */
  lemma FetchFailureAlertOutlivesTimers(c: Center, error: Value, ids: seq<nat>)
    requires Consistent(c)
    requires !error.Null? && !error.Undefined?
    ensures OnFetchFail(c, error).center.shown[|c.shown|] in TickAll(OnFetchFail(c, error).center, ids).shown
  {
    var flash := map["message" := Prop(error, "message").value, "category" := Str("error"), "persist" := Bool(true)];
    NotifyKeepsConsistent(c, flash);
    var after := OnFetchFail(c, error).center;
    assert after == Notify(c, flash);
    PersistentSurvivesTicks(after, ids, after.shown[|c.shown|]);
  }

  /**
   What reaches the alert area of a running explorer: the dataset's query
   lifecycle and fetch failure through the handlers `initialize` subscribes,
   a flash passed to `notify`, a call of `clearNotifications`, and a removal
   timer firing.
   */
  datatype Report =
    | QueryStarted
    | QueryDone(docCount: Value)
    | QueryFailed(error: Value)
    | FetchFailed(error: Value)
    | Flashed(flash: Record)
    | Cleared
    | TimerFired(id: nat)

  /**
   The alert area after one report. Only a flash can arm a new timer, and
   that timer is for the alert the flash adds.
   */
  function Handle(c: Center, ev: Report): (r: Center)
    ensures r.next == c.next || r.next == c.next + 1
    ensures r.pending <= c.pending + {c.next}
    ensures !ev.Flashed? && !ev.TimerFired? ==> r.pending == c.pending
    ensures !ev.TimerFired? ==> c.pending <= r.pending
    ensures ev.Cleared? || ev.QueryDone? ==> |r.shown| == 0
  {
    match ev
    case QueryStarted => OnQueryStart(c)
    case QueryDone(docCount) => OnQueryDone(c, docCount).center
    case QueryFailed(error) => OnQueryFail(c, error).center
    case FetchFailed(error) => OnFetchFail(c, error).center
    case Flashed(flash) => Notify(c, flash)
    case Cleared => Clear(c)
    case TimerFired(id) => Tick(c, id)
  }

  /** Every report keeps the alert area consistent. */
  lemma HandleKeepsConsistent(c: Center, ev: Report)
    requires Consistent(c)
    ensures Consistent(Handle(c, ev))
  {
    match ev
    case QueryStarted =>
      NotifyKeepsConsistent(c, map["loader" := Bool(true), "persist" := Bool(true)]);
    case QueryFailed(error) =>
      if !error.Null? {
        NotifyKeepsConsistent(Clear(c), map["message" := Str(FailureMessage(error).value), "category" := Str("error"), "persist" := Bool(true)]);
      }
    case FetchFailed(error) =>
      if !error.Null? && !error.Undefined? {
        NotifyKeepsConsistent(c, map["message" := Prop(error, "message").value, "category" := Str("error"), "persist" := Bool(true)]);
      }
    case Flashed(flash) => NotifyKeepsConsistent(c, flash);
    case TimerFired(id) => TickKeepsConsistent(c, id);
    case _ =>
  }
}

=== FILE: propagation.dfy ===
/**
 Upward state propagation (`_bindStateChanges`): the composite state mirrors
 the dataset's query state under `query` and every sub-view's own state under
 `view-<id>`, first when the subscriptions are installed and then once per
 upstream change.
 */
module Propagation {
  import opened Results
  import opened JsValue
  import opened CompositeState
  import opened Navigation

  /** A view takes part in propagation when it carries a bindable state object. */
  predicate Bound(v: PageView) {
    v.state.Some?
  }

  /** The keys that binding writes: one `view-<id>` per bound view. */
  function BoundKeys(views: seq<PageView>): set<string> {
    set i | 0 <= i < |views| && Bound(views[i]) :: ViewKey(views[i].id)
  }

  /** View `i` is bound and no later bound view shares its id, so its write is the last. */
  predicate LastBound(views: seq<PageView>, i: int)
    requires 0 <= i < |views|
  {
    Bound(views[i]) && forall j :: i < j < |views| && Bound(views[j]) ==> views[j].id != views[i].id
  }

  /** The first write for one view: `state.set({'view-<id>': snapshot})`, not silent. */
  function BindOne(o: ObjectState, v: PageView): (r: ObjectState)
    ensures !Bound(v) ==> r == o
    ensures Bound(v) ==> r.attrs == o.attrs[ViewKey(v.id) := v.state.value]
    ensures Bound(v) ==>
      r.changes == if Get(o.attrs, ViewKey(v.id)) != v.state.value then o.changes + 1 else o.changes
  {
    if Bound(v) then Set(o, map[ViewKey(v.id) := v.state.value], false) else o
  }

  /** Binding every registered view, in registry order. */
  function BindAll(o: ObjectState, views: seq<PageView>): (r: ObjectState)
    ensures r.attrs.Keys == o.attrs.Keys + BoundKeys(views)
    ensures forall k :: k in o.attrs && k !in BoundKeys(views) ==> r.attrs[k] == o.attrs[k]
    ensures o.changes <= r.changes <= o.changes + |views|
    decreases |views|
  {
    if |views| == 0 then o
    else
      var rest := views[1..];
      assert BoundKeys(views) == (if Bound(views[0]) then {ViewKey(views[0].id)} else {}) + BoundKeys(rest) by {
        forall k | k in BoundKeys(views)
          ensures k in (if Bound(views[0]) then {ViewKey(views[0].id)} else {}) + BoundKeys(rest)
        {
          var i :| 0 <= i < |views| && Bound(views[i]) && k == ViewKey(views[i].id);
          if i > 0 {
            assert views[i] == rest[i - 1];
          }
        }
        forall k | k in BoundKeys(rest)
          ensures k in BoundKeys(views)
        {
          var i :| 0 <= i < |rest| && Bound(rest[i]) && k == ViewKey(rest[i].id);
          assert rest[i] == views[i + 1];
        }
      }
      BindAll(BindOne(o, views[0]), rest)
  }

  /**
   After binding, the slot of every bound view holds that view's snapshot
   (when two bound views share an id, the later one's).
   */
  lemma {:induction false} BindAllMirrors(o: ObjectState, views: seq<PageView>, i: int)
    requires 0 <= i < |views|
    requires LastBound(views, i)
    ensures ViewKey(views[i].id) in BindAll(o, views).attrs
    ensures BindAll(o, views).attrs[ViewKey(views[i].id)] == views[i].state.value
    decreases |views|
  {
    var rest := views[1..];
    var o' := BindOne(o, views[0]);
    if i == 0 {
      var k := ViewKey(views[0].id);
      assert k !in BoundKeys(rest);
    } else {
      assert views[i] == rest[i - 1];
      assert LastBound(rest, i - 1) by {
        forall j | i - 1 < j < |rest| && Bound(rest[j])
          ensures rest[j].id != rest[i - 1].id
        {
          assert rest[j] == views[j + 1];
        }
      }
      BindAllMirrors(o', rest, i - 1);
    }
  }

  /** Every bound view's slot holds exactly that view's current snapshot. */
  ghost predicate Synced(o: ObjectState, views: seq<PageView>) {
    forall i :: 0 <= i < |views| && Bound(views[i]) ==>
      ViewKey(views[i].id) in o.attrs && o.attrs[ViewKey(views[i].id)] == views[i].state.value
  }

  /** With unique ids, binding leaves the composite state in sync with every bound view. */
  lemma BindAllSyncs(o: ObjectState, views: seq<PageView>)
    requires UniqueIds(views)
    ensures Synced(BindAll(o, views), views)
  {
    forall i | 0 <= i < |views| && Bound(views[i])
      ensures ViewKey(views[i].id) in BindAll(o, views).attrs
      ensures BindAll(o, views).attrs[ViewKey(views[i].id)] == views[i].state.value
    {
      BindAllMirrors(o, views, i);
    }
  }

  /**
   The handler bound to the query state: `state.set({query: snapshot})`, not
   silent, so observers hear of it only when the query actually changed.
   */
  function OnQueryChange(o: ObjectState, snapshot: Value): (r: ObjectState)
    ensures r.attrs == o.attrs["query" := snapshot]
    ensures r.changes == if Get(o.attrs, "query") != snapshot then o.changes + 1 else o.changes
  {
    Set(o, map["query" := snapshot], false)
  }

  /**
   The handler bound to a sub-view's state: a silent write of its snapshot
   followed by one explicit `change`, so observers hear of every upstream
   change exactly once, whether or not the snapshot differs.
   */
  function OnViewChange(o: ObjectState, id: string, snapshot: Value): (r: ObjectState)
    ensures r.attrs == o.attrs[ViewKey(id) := snapshot]
    ensures r.changes == o.changes + 1
  {
    Trigger(Set(o, map[ViewKey(id) := snapshot], true))
  }

  /** A change upstream of the composite state: the query state or view `index`'s state. */
  datatype Upstream = QueryChanged(snapshot: Value) | ViewChanged(index: nat, snapshot: Value)

  /**
   The live objects the composite state mirrors: the state itself, the
   registry with each view's current snapshot, and the query state's snapshot.
   */
  datatype Session = Session(state: ObjectState, views: seq<PageView>, query: Value)

  /** Same registry shape: ids, captions and bound-ness, only snapshots may differ. */
  predicate SameRegistry(a: seq<PageView>, b: seq<PageView>) {
    |a| == |b| &&
    forall i :: 0 <= i < |a| ==> a[i].id == b[i].id && a[i].caption == b[i].caption && Bound(a[i]) == Bound(b[i])
  }

  /** Whether `ev` reaches a subscribed handler of bound view. */
  predicate HitsBoundView(views: seq<PageView>, ev: Upstream) {
    ev.ViewChanged? && ev.index < |views| && Bound(views[ev.index])
  }

  /**
   One upstream change and the handler it runs. Only bound views were
   subscribed, so a change reported for any other index reaches no handler.
   */
  function Step(s: Session, ev: Upstream): (r: Session)
    ensures SameRegistry(s.views, r.views)
    ensures ev.QueryChanged? ==> r.state == OnQueryChange(s.state, ev.snapshot) && r.query == ev.snapshot
    ensures ev.QueryChanged? ==> r.views == s.views
    ensures HitsBoundView(s.views, ev) ==>
      r.state == OnViewChange(s.state, s.views[ev.index].id, ev.snapshot)
      && r.views == s.views[ev.index := s.views[ev.index].(state := Some(ev.snapshot))]
      && r.query == s.query
    ensures ev.ViewChanged? && !HitsBoundView(s.views, ev) ==> r == s
  {
    match ev
    case QueryChanged(q) => s.(state := OnQueryChange(s.state, q), query := q)
    case ViewChanged(i, snap) =>
      if i < |s.views| && Bound(s.views[i]) then
        s.(state := OnViewChange(s.state, s.views[i].id, snap),
           views := s.views[i := s.views[i].(state := Some(snap))])
      else s
  }

  /** With unique ids every handled change keeps each view slot in sync with its view. */
  lemma StepKeepsSynced(s: Session, ev: Upstream)
    requires UniqueIds(s.views)
    requires Synced(s.state, s.views)
    ensures Synced(Step(s, ev).state, Step(s, ev).views)
  {
    var r := Step(s, ev);
    forall i | 0 <= i < |r.views| && Bound(r.views[i])
      ensures ViewKey(r.views[i].id) in r.state.attrs
      ensures r.state.attrs[ViewKey(r.views[i].id)] == r.views[i].state.value
    {
      ViewKeyAvoidsReserved(r.views[i].id);
      if HitsBoundView(s.views, ev) && i != ev.index {
        if ViewKey(s.views[i].id) == ViewKey(s.views[ev.index].id) {
          ViewKeyInjective(s.views[i].id, s.views[ev.index].id);
        }
      }
    }
  }

  /** A sequence of upstream changes handled one after another. */
  function Run(s: Session, evs: seq<Upstream>): Session
    decreases |evs|
  {
    if |evs| == 0 then s else Run(Step(s, evs[0]), evs[1..])
  }

  /** The number of changes in `evs` that reach a bound view's handler. */
  function ViewHits(views: seq<PageView>, evs: seq<Upstream>): nat
    decreases |evs|
  {
    if |evs| == 0 then 0
    else (if HitsBoundView(views, evs[0]) then 1 else 0) + ViewHits(views, evs[1..])
  }

  /**
   Observers of the composite state hear at least one `change` per sub-view
   change and at most one per upstream change of any kind.
   */
  lemma {:induction false} RunChangeCount(s: Session, evs: seq<Upstream>)
    ensures s.state.changes + ViewHits(s.views, evs) <= Run(s, evs).state.changes
    ensures Run(s, evs).state.changes <= s.state.changes + |evs|
    decreases |evs|
  {
    if |evs| > 0 {
      var s' := Step(s, evs[0]);
      RunChangeCount(s', evs[1..]);
      ViewHitsSameRegistry(s.views, s'.views, evs[1..]);
    }
  }

  /** Which changes hit bound views depends only on the registry's shape. */
  lemma {:induction false} ViewHitsSameRegistry(a: seq<PageView>, b: seq<PageView>, evs: seq<Upstream>)
    requires SameRegistry(a, b)
    ensures ViewHits(a, evs) == ViewHits(b, evs)
    decreases |evs|
  {
    if |evs| > 0 {
      ViewHitsSameRegistry(a, b, evs[1..]);
    }
  }

  /** A run of sub-view changes emits exactly one `change` per change. */
  lemma ViewChangesEmitOneEach(s: Session, evs: seq<Upstream>)
    requires forall i :: 0 <= i < |evs| ==> HitsBoundView(s.views, evs[i])
    ensures Run(s, evs).state.changes == s.state.changes + |evs|
  {
    AllHit(s.views, evs);
    RunChangeCount(s, evs);
  }

  /** When every change hits a bound view, all of them are counted. */
  lemma {:induction false} AllHit(views: seq<PageView>, evs: seq<Upstream>)
    requires forall i :: 0 <= i < |evs| ==> HitsBoundView(views, evs[i])
    ensures ViewHits(views, evs) == |evs|
    decreases |evs|
  {
    if |evs| > 0 {
      assert forall i :: 0 <= i < |evs[1..]| ==> evs[1..][i] == evs[i + 1];
      AllHit(views, evs[1..]);
    }
  }

  /** With unique ids the composite state stays in sync across any run of changes. */
  lemma {:induction false} RunKeepsSynced(s: Session, evs: seq<Upstream>)
    requires UniqueIds(s.views)
    requires Synced(s.state, s.views)
    ensures Synced(Run(s, evs).state, Run(s, evs).views)
    decreases |evs|
  {
    if |evs| > 0 {
      var s' := Step(s, evs[0]);
      StepKeepsSynced(s, evs[0]);
      RunKeepsSynced(s', evs[1..]);
    }
  }
}

=== FILE: results.dfy ===
/** Failure-compatible wrappers shared by every module of the model. */
module Results {

  /** A value that may be missing: an absent hash key, a failed decode. */
  datatype Option<+T> = None | Some(value: T)

  /** The outcome of an operation that throws on some inputs. */
  datatype Result<+T, +E> = Success(value: T) | Failure(error: E)
}
